=== FILE: README.md ===
# Quiz portal stores — a Dafny model

This project models the in-memory state of a quiz portal: the **quiz store**
(a catalogue of quizzes and a list of attempts, with commands to add, delete
and update quizzes, start an attempt, record an answer and complete an
attempt) and the **auth store** (at most one current user, whose level is a
fixed function of experience and whose badges are deduplicated by id). Completing an attempt
scores it and, on a pass, rewards the current user. That is the one place
where the two stores meet.

Both stores are one immutable value, `QuizStore.Store(quizzes, attempts, user)`,
and every command is a pure transition function on it. Fresh ids (`nanoid`)
and the start time (`Date.now`) are parameters. Each id-taking command
requires that its fresh id does not already occur.

Files:

- `optional.dfy` (`Optional`): the `Option` type used for optional fields.
- `types.dfy` (`Types`): users, quizzes, questions, attempts, badges and the stored `Score`.
- `seqs.dfy` (`Seqs`): `filter`, `find` and the conditional `map` the stores are written with.
- `auth_store.dfy` (`AuthStore`): `calculateLevel`, `login`, `logout`, `addExperience`, `addBadge`.
- `scoring.dfy` (`Scoring`): correct-answer count, rounded percentage and pass test of `completeQuiz`.
- `quiz_store.dfy` (`QuizStore`): the combined state, its invariant, and every store command and query.
- `quiz_store_props.dfy` (`QuizStoreProps`): round trips, idempotence and frame lemmas that relate several commands.
- `scenarios.dfy` (`Scenarios`): concrete runs.

Modelling choices:

- **Zero-question quiz.** The source computes `0 / 0 = NaN` here. The model has
  an explicit branch for it, not a precondition: `Score = Pct(n) | NaN`. Such an
  attempt is stored as completed with score `NaN` and is never rewarded.
  `updateQuiz` can empty a quiz's questions, so a precondition would exclude
  reachable states.
- **Integer arithmetic.** The stored score is `Math.round((c / t) * 100)` on
  doubles. Its value in exact arithmetic is `(200 * c + t) / (2 * t)`, and the
  contract states that this is the nearest integer to 100·c/t, with halves
  rounded up. The two can differ by one (see "Left out"). The pass test `score >= 70` is applied to the
  unrounded score and is `t > 0 && 100 * c >= 70 * t`. The level
  `floor(sqrt(e / 100)) + 1` is the `l >= 1` with `100 (l-1)^2 <= e < 100 l^2`.
- **Duplicate ids.** Ids are not assumed unique, because `updateQuiz` can change a quiz's id.
  As in the source, `find` takes the first match and every `map` rewrites every match.
  For example, `completeQuiz` scores every attempt with the id using the answers of the first one.
- **Optional fields.** A `Partial<Quiz>` whose keys are either absent or carry a value of the field's type is a `QuizPatch`, where `None` means the key is absent.
  For the optional quiz fields, a key can also be present with the value `undefined`,
  which the spread copies. That case is `Some(None)`.

Behaviours of the code that are easy to assume otherwise:

- `deleteQuiz` removes every quiz with the id, not just one.
- `login` keeps the badges it is given, even duplicates. So unique badge ids are an invariant only when the logged-in user arrived with unique ids.
- Nothing enforces "at most one unfinished attempt per student". `StartTwiceFirstIsCurrent` shows two unfinished attempts side by side.

## Model

| member | source | states |
|---|---|---|
| Seqs.Filter | src/store/quizStore.ts:119-122 | every element `filter` keeps satisfies the predicate, the result is no longer than the input, and a sequence whose elements all satisfy it comes back unchanged |
| Seqs.FilterMultiset | src/store/quizStore.ts:121 | every kept element survives as often as it occurred, and no rejected element survives |
| Seqs.FilterAppend | src/store/quizStore.ts:121 | filtering distributes over concatenation, so the kept quizzes stay in their original order |
| Seqs.Find | src/store/quizStore.ts:156-157 | `find` returns none iff no element matches; otherwise it returns a matching element with no earlier match |
| Seqs.FirstIndex | src/store/quizStore.ts:193-195 | the index returned is the first match, or the length when nothing matches |
| Seqs.MapWhere | src/store/quizStore.ts:125-127 | the conditional `map` keeps length and position, rewrites exactly the matching elements, and leaves every other element unchanged |
| AuthStore.CalculateLevel | src/store/authStore.ts:12 | the level is at least 1, and level − 1 is the largest k with 100·k² ≤ experience, which is floor(sqrt(e/100)) |
| AuthStore.LevelUnique | src/store/authStore.ts:12 | any l ≥ 1 with 100(l−1)² ≤ e < 100l² is the computed level, so the formula has exactly one solution |
| AuthStore.LevelMonotone | src/store/authStore.ts:12 | the level never decreases as experience grows |
| AuthStore.Login | src/store/authStore.ts:16-23 | the user becomes current with identity kept, absent experience set to 0, absent badges set to empty, and the level recomputed; unique badge ids give a well-formed user |
| AuthStore.LoginIgnoresSuppliedLevel | src/store/authStore.ts:20 | a level handed to login has no effect on the stored user |
| AuthStore.Experience | src/store/authStore.ts:19-20 | a user's experience with the `|| 0` default: the stored value when present, 0 when absent |
| AuthStore.Badges | src/store/authStore.ts:21 | a user's badges with the `|| []` default: the stored list when present, empty when absent |
| AuthStore.Logout | src/store/authStore.ts:24 | afterwards there is no current user, whatever was there before |
| AuthStore.AddExperience | src/store/authStore.ts:25-38 | with no user it is a no-op; otherwise experience becomes old + points, the level follows it, identity and badges are unchanged, and the invariant is kept |
| AuthStore.LevelConsistent | src/store/authStore.ts:16-23 | a stored user has experience and badges present and the level derived from the experience, as `login` and `addExperience` write them |
| AuthStore.UserWellFormed | src/store/authStore.ts:39-52 | the auth invariant: no user, or a level-consistent user whose badge ids are distinct, which `addBadge`'s duplicate check keeps |
| QuizStore.Valid | src/store/quizStore.ts:182-188 | the store invariant: every attempt has a score iff it is completed, a numeric score lies in 0..100, and the user is well formed |
| AuthStore.AddExperienceAdditive | src/store/authStore.ts:25-38 | two grants equal one grant of their sum |
| AuthStore.AddExperienceLevelNeverDrops | src/store/authStore.ts:28-29 | granting experience never lowers the stored level |
| AuthStore.AddBadge | src/store/authStore.ts:39-52 | with no user it is a no-op; otherwise the old badges are a prefix of the new ones, the id set gains exactly the badge's id, and the list grows by one (the badge, at the end) iff its id was absent; unique ids stay unique |
| AuthStore.HasBadgeId | src/store/authStore.ts:43 | the `some` test that decides whether `addBadge` appends: some badge in the list carries the id |
| AuthStore.AddBadgeIdempotent | src/store/authStore.ts:42-45 | adding the same badge twice equals adding it once |
| AuthStore.AppendIfAbsentIds | src/store/authStore.ts:42-45 | the badge ids after the conditional push are the ids before plus the new id |
| Scoring.CountCorrect | src/store/quizStore.ts:161-165 | the count is at most the number of questions; it equals that number iff every question was answered correctly, and it is 0 iff none was; a single question counts 1 iff it was answered correctly |
| Scoring.IsCorrect | src/store/quizStore.ts:162 | a question is correct iff the attempt holds an answer under its id and that answer equals the correct index; a missing answer is `undefined` and matches no index |
| Scoring.CountCorrectAppend | src/store/quizStore.ts:161-165 | the count of a concatenation is the sum of the counts, so with the single-question case the count is the number of correctly answered questions |
| Scoring.CountCorrectIgnoresOtherKeys | src/store/quizStore.ts:161-165 | an answer stored under a key that is not a question id of the quiz does not change the count |
| Scoring.RoundedPercent | src/store/quizStore.ts:185 | the stored score lies in 0..100 and is within one half of 100·c/t, with halves rounded up, as `Math.round` does in exact arithmetic |
| Scoring.RoundedExtremes | src/store/quizStore.ts:185 | all answers correct gives 100; none correct gives 0 |
| Scoring.PassesIsSeventyPercent | src/store/quizStore.ts:166-169 | the integer pass test holds iff there are questions and the exact percentage is at least 70 |
| Scoring.Passes | src/store/quizStore.ts:166-169 | the pass test `score >= 70` on the unrounded score, false when there are no questions (the score is `NaN`) |
| Scoring.ScoreOf | src/store/quizStore.ts:160-166 | the score is NaN iff the quiz has no questions; otherwise it is a percentage in 0..100 within one half of 100 times the correct count over the question count (`Math.round` in exact arithmetic), 100 when every answer is right and 0 when none is |
| Scoring.PassImpliesStoredScoreAtLeastSeventy | src/store/quizStore.ts:166-185 | a passing attempt stores a score of at least 70 |
| Scoring.RoundedSeventyNeedNotPass | src/store/quizStore.ts:169 | 139 of 200 is stored as 70 yet does not pass, because the test uses the unrounded score |
| Scoring.FullScoreNeedNotBePerfect | src/store/quizStore.ts:185 | 199 of 200 is stored as 100 |
| QuizStore.Init | src/store/quizStore.ts:112-114 | the start state (seeded catalogue, no attempts, no user) satisfies the invariant |
| QuizStore.Login | src/store/authStore.ts:16-23 | login changes only the user; the invariant holds afterwards when the new user's badge ids are unique |
| QuizStore.Logout | src/store/authStore.ts:24 | logout clears the user, leaves both quiz lists alone and keeps the invariant |
| QuizStore.AddQuiz | src/store/quizStore.ts:115-118 | exactly one quiz, with the fresh id, is appended at the end; existing quizzes, attempts and the user are unchanged |
| QuizStore.DeleteQuiz | src/store/quizStore.ts:119-122 | no quiz with the id remains; every other quiz keeps its multiplicity; an absent id is a no-op; attempts (orphans included) and the user are untouched |
| QuizStoreProps.DeleteQuizKeepsOrder | src/store/quizStore.ts:119-122 | deleting from a split catalogue is deleting from each part and concatenating, so the surviving quizzes keep their catalogue order |
| QuizStore.Merge | src/store/quizStore.ts:126 | for each of the nine fields, a key present in the patch wins and an absent key keeps the quiz's field; the empty patch changes nothing |
| QuizStore.MergeIdempotent | src/store/quizStore.ts:126 | merging the same patch twice equals merging it once |
| QuizStore.UpdateQuiz | src/store/quizStore.ts:123-128 | the length and order of the catalogue are kept; quizzes with the id are merged and all others are unchanged; an absent id is a no-op |
| QuizStore.StartQuiz | src/store/quizStore.ts:129-142 | one unfinished, unscored attempt with no answers is appended and returned; quizzes and user are unchanged; no existing attempt or allowed-student list is consulted |
| QuizStore.SubmitAnswer | src/store/quizStore.ts:143-153 | matching attempts map the question to the answer, keep every other answer and field, and gain only that key; all other attempts are unchanged; an unknown attempt id is a no-op |
| QuizStore.SubmitAnswerAt | src/store/quizStore.ts:149 | the answers of a matching attempt are its old answers with one entry set |
| QuizStore.QuizById | src/store/quizStore.ts:157 | a quiz is found iff its id occurs, and it is the first one carrying the id |
| QuizStore.QuizByIdAt | src/store/quizStore.ts:157 | the quiz at the first position carrying the id is the one found |
| QuizStore.AttemptById | src/store/quizStore.ts:156 | an attempt is found iff its id occurs, and it is the first one carrying the id |
| QuizStore.Target | src/store/quizStore.ts:155-159 | completion has a target iff the attempt id occurs and the quiz it names exists; the target is the first attempt with the id and the first quiz with its quiz id |
| QuizStore.Reward | src/store/quizStore.ts:169-180 | the reward keeps the current user's identity. Experience grows by the quiz's points when they are truthy (present and non-zero) and is otherwise unchanged. The level is recomputed from the new experience when points are granted and unchanged otherwise. When the quiz defines a badge, the badges are those `addBadge` produces (the badge's id is present afterwards); when it does not, they are unchanged. The invariant is kept |
| QuizStore.Completed | src/store/quizStore.ts:185 | the attempt `completeQuiz` writes: marked completed with the given score, every other field kept |
| QuizStore.CompleteQuiz | src/store/quizStore.ts:154-190 | a missing attempt or quiz is a no-op; otherwise matching attempts become completed with the first match's score, other attempts and quizzes are unchanged, and the user changes only on a pass, when it receives the reward |
| QuizStore.GetCurrentAttempt | src/store/quizStore.ts:191-196 | the result is none iff the student has no unfinished attempt; otherwise it is the student's first unfinished attempt in list order |
| QuizStore.IsOpenAttemptOf | src/store/quizStore.ts:194 | the test `getCurrentAttempt` applies: the attempt belongs to the student and is not completed |
| QuizStore.ProgressPercent | src/store/quizStore.ts:205-207 | progress is 0 when nothing is available; otherwise progress × available = 100 × completed; it is 0 iff either count is 0 |
| QuizStore.GetStudentProgress | src/store/quizStore.ts:197-208 | the ratio of the student's completed attempts to active quizzes that allow the student, as a percentage, with 0 when none is available |
| QuizStore.CompletedAttempts | src/store/quizStore.ts:199-201 | the progress numerator: the student's completed attempts, in store order |
| QuizStoreProps.CompletedAttemptsAre | src/store/quizStore.ts:199-201 | the numerator holds every completed attempt of the student exactly as often as the store does, and nothing else |
| QuizStore.AvailableQuizzes | src/store/quizStore.ts:202-204 | the progress denominator: active quizzes whose allowed students include the student |
| QuizStoreProps.AvailableQuizzesAre | src/store/quizStore.ts:202-204 | the denominator holds every active quiz that lists the student exactly as often as the catalogue does, and nothing else |
| QuizStoreProps.AddThenDeleteRestores | src/store/quizStore.ts:115-122 | deleting the quiz just added under a fresh id restores the whole state |
| QuizStoreProps.AddThenFind | src/store/quizStore.ts:115-118 | the quiz just added is found under its fresh id, carrying the given data |
| QuizStoreProps.DeleteQuizIdempotent | src/store/quizStore.ts:119-122 | deleting twice equals deleting once |
| QuizStoreProps.UpdateQuizIdempotent | src/store/quizStore.ts:123-128 | updating twice with the same patch equals updating once, even when the patch renames the quiz |
| QuizStoreProps.DeactivateThenRead | src/store/quizStore.ts:123-128 | after `updateQuiz(id, {isActive: false})`, reading the quiz back gives the same quiz with only `isActive` changed |
| QuizStoreProps.SubmitLastWins | src/store/quizStore.ts:143-153 | a later answer to the same question replaces the earlier one |
| QuizStoreProps.SubmitDifferentQuestionsCommute | src/store/quizStore.ts:143-153 | answers to two different questions can be recorded in either order |
| QuizStoreProps.FilterLengthPointwise | src/store/quizStore.ts:199-201 | sequences on which the filter predicate agrees position by position keep the same number of elements after filtering |
| QuizStoreProps.SubmitKeepsProgress | src/store/quizStore.ts:143-153 | recording an answer never changes any student's progress |
| QuizStoreProps.StartKeepsProgress | src/store/quizStore.ts:129-142 | starting an attempt never changes any student's progress |
| QuizStoreProps.StartThenCurrent | src/store/quizStore.ts:129-142 | after a start, the current attempt is the earlier unfinished one if there was one, and the new one otherwise |
| QuizStoreProps.CompleteRewardsOnlyOnPass | src/store/quizStore.ts:169-180 | without a pass the user is unchanged, and completion never logs anyone in or out |
| QuizStoreProps.EmptyQuizScoresNaN | src/store/quizStore.ts:160-166 | an attempt of a quiz without questions is stored as NaN and not rewarded |
| Scenarios.HalfRightNoReward | src/store/quizStore.ts:154-190 | answers {q1: 1, q2: 0} against correct answers [1, 1] give score 50 and no reward |
| Scenarios.AliceReward | src/store/quizStore.ts:169-180 | the reward of a 50-XP quiz with a badge gives a freshly logged-in user 50 XP and that badge |
| Scenarios.AllRightRewarded | src/store/quizStore.ts:154-190 | answers {q1: 1, q2: 1} give score 100, plus 50 XP and the badge |
| Scenarios.SecondCompletionRewardsAgain | src/store/quizStore.ts:154-190 | completing the same attempt twice grants the XP twice |
| Scenarios.RewardGoesToCurrentUser | src/store/quizStore.ts:169-180 | a logged-in administrator collects the reward for student S1's attempt |
| Scenarios.NoAvailableQuizProgressZero | src/store/quizStore.ts:205-207 | with no active quiz allowing the student, progress is 0 |
| Scenarios.ProgressCanExceedHundred | src/store/quizStore.ts:197-208 | two completed attempts of the one available quiz give progress 200 |
| Scenarios.StartTwiceFirstIsCurrent | src/store/quizStore.ts:191-196 | two starts leave two unfinished attempts, and the first one is current |

## Left out

- The view layer is not modelled. That covers dashboards, forms, alerts, the quiz page's countdown timer, navigation, routing and the presentational components. Each is UI glue that calls the store commands modelled here.
- The seeded catalogue is not modelled. `Init` takes the catalogue as a parameter.
- `nanoid` and `Date.now` are not modelled. Fresh ids and the start time are parameters. Freshness is a precondition of `AddQuiz` and `StartQuiz`.
- zustand's `create`/`set`/`get` and React subscriptions are not modelled. Each command is a pure function from one state to the next.
- AuthStore.CalculateLevel: models exact integer square-root arithmetic. It does not model floating-point rounding of `Math.sqrt(exp / 100)`, which could differ only for experience values near 2^53.
- Scoring.RoundedPercent: models exact arithmetic. It does not model the double rounding of `(c / t) * 100`, which matters for ordinary quiz sizes. For 23 correct answers out of 40, the double `(23 / 40) * 100` is 57.49999999999999, so the source stores 57 while the model stores 58. The same happens for 46 of 80 and for 29, 57, 113 and 115 of 200.
- Scoring.ScoreOf: the score it gives a completed attempt is `RoundedPercent`, so it differs from the source in the same cases. For 23 of 40 the source stores 57 and the model 58, which lies outside the one-half bracket around the double value. The pass test is unaffected, because it compares the unrounded score.
- Scoring.PassesIsSeventyPercent: the integer test is the exact-arithmetic value of `score >= 70`. The model does not reason about doubles. Unlike the stored score, which diverges near halves, the pass test could diverge only if the double `(c / t) * 100` landed on the wrong side of 70 when the exact value is at or next to 70. No such question count up to 2000 is known.
- QuizStore.ProgressPercent, QuizStore.GetStudentProgress: the division is exact real arithmetic, not a double, so the result is not rounded to a float.
- AuthStore.AddExperience: points and experience are naturals. Negative or fractional points are not modelled. For a negative experience value, `Math.sqrt` would give `NaN`.
- QuizStore.UpdateQuiz: a patch that sets a required key to `undefined` (say `{ questions: undefined }`) is not modelled. `Partial<Quiz>` admits it, the spread would copy it, and a later `completeQuiz` would fail on `quiz.questions.length`. The callers in src/pages/AdminDashboard.tsx (lines 97, 106 and 330) only pass `allowedStudents` or `isActive` with real values.
- Object-key quirks of answer maps are not modelled. Examples are keys such as `__proto__`, or `answers[id]` reading an inherited property. Answers are a plain `map`.

=== FILE: auth_store.dfy ===
/** The authentication store: at most one current user, whose level is a
    fixed function of its experience and whose badges are deduplicated by
    id. Every command is a total function from the current user (or none)
    to the next one. */
module AuthStore {
  import opened Optional
  import opened Types

  /** `calculateLevel`: floor(sqrt(e / 100)) + 1. The level minus one is the
      largest natural k with 100 * k * k <= e. */
  function CalculateLevel(e: nat): (l: nat)
    ensures l >= 1
    ensures 100 * ((l - 1) * (l - 1)) <= e < 100 * (l * l)
    decreases e
  {
    if e == 0 then 1
    else
      var prev := CalculateLevel(e - 1);
      if 100 * (prev * prev) <= e then
        assert prev * prev < (prev + 1) * (prev + 1);
        prev + 1
      else
        prev
  }

  lemma SquareMonotone(a: nat, b: nat)
    requires a <= b
    ensures a * a <= b * b
  {
  }

  /** The level is the unique l >= 1 with 100 * (l - 1)^2 <= e < 100 * l^2:
      any candidate meeting that bound is the computed level. */
  lemma LevelUnique(e: nat, k: nat)
    requires k >= 1
    requires 100 * ((k - 1) * (k - 1)) <= e < 100 * (k * k)
    ensures CalculateLevel(e) == k
  {
    var l := CalculateLevel(e);
    if l < k {
      SquareMonotone(l, k - 1);
    } else if l > k {
      SquareMonotone(k, l - 1);
    }
  }

  /** More experience never means a lower level. */
  lemma LevelMonotone(e1: nat, e2: nat)
    requires e1 <= e2
    ensures CalculateLevel(e1) <= CalculateLevel(e2)
  {

  }

  /** Experience with the `|| 0` default the store applies. */
  function Experience(u: User): nat {
    u.experience.GetOr(0)
  }

  /** Badges with the `|| []` default the store applies. */
  function Badges(u: User): seq<Badge> {
    u.badges.GetOr([])
  }

  /** The ids of a badge list. */
  function BadgeIds(bs: seq<Badge>): set<Id> {
    set i | 0 <= i < |bs| :: bs[i].id
  }

  /** `badges.some(b => b.id === badge.id)`, the test `addBadge` uses. */
  predicate HasBadgeId(bs: seq<Badge>, id: Id) {
    id in BadgeIds(bs)
  }

  lemma BadgeIdsAppend(bs: seq<Badge>, b: Badge)
    ensures BadgeIds(bs + [b]) == BadgeIds(bs) + {b.id}
  {
    var after := bs + [b];
    forall x | x in BadgeIds(after) ensures x in BadgeIds(bs) + {b.id} {
      var i :| 0 <= i < |after| && after[i].id == x;
      if i < |bs| {
        assert bs[i].id == x;
      }
    }
    forall x | x in BadgeIds(bs) ensures x in BadgeIds(after) {
      var i :| 0 <= i < |bs| && bs[i].id == x;
      assert after[i].id == x;
    }
    assert after[|bs|].id == b.id;
  }

  /** The ids after `addBadge` are the ids before plus the new badge's id. */
  lemma AppendIfAbsentIds(bs: seq<Badge>, b: Badge)
    ensures BadgeIds(if HasBadgeId(bs, b.id) then bs else bs + [b]) == BadgeIds(bs) + {b.id}
  {
    if !HasBadgeId(bs, b.id) {
      BadgeIdsAppend(bs, b);
    }
  }

  predicate UniqueBadgeIds(bs: seq<Badge>) {
    forall i, j :: 0 <= i < j < |bs| ==> bs[i].id != bs[j].id
  }

  /** The fields no store command ever changes. */
  predicate SameIdentity(u: User, v: User) {
    u.id == v.id && u.name == v.name && u.email == v.email
    && u.role == v.role && u.studentId == v.studentId
  }

  /** A user as the store keeps it: experience and badges present, and the
      level derived from the experience. */
  predicate LevelConsistent(u: User) {
    u.experience.Some? && u.badges.Some?
    && u.level == Some(CalculateLevel(u.experience.value))
  }

  /** The auth-store invariant on the current user. */
  predicate UserWellFormed(cur: Option<User>) {
    cur.Some? ==> LevelConsistent(cur.value) && UniqueBadgeIds(cur.value.badges.value)
  }

  /** `login`: the given user becomes current, replacing any previous one;
      absent experience becomes 0, absent badges become empty, and the level
      is recomputed whatever level was supplied. */
  function Login(u: User): (r: Option<User>)
    ensures r.Some? && SameIdentity(r.value, u)
    ensures r.value.experience == Some(Experience(u))
    ensures r.value.badges == Some(Badges(u))
    ensures LevelConsistent(r.value)
    ensures UniqueBadgeIds(Badges(u)) ==> UserWellFormed(r)
  {
    var e := Experience(u);
    Some(u.(experience := Some(e), level := Some(CalculateLevel(e)), badges := Some(Badges(u))))
  }

  /** A level handed to `login` has no effect on the stored user. */
  lemma LoginIgnoresSuppliedLevel(u: User, level: Option<int>)
    ensures Login(u.(level := level)) == Login(u)
  {
  }

  /** `logout`: no current user afterwards, whatever was there before. */
  function Logout(): (r: Option<User>)
    ensures r.None?
    ensures UserWellFormed(r)
  {
    None
  }

  /** `addExperience`: a no-op without a current user; otherwise experience
      grows by `points` and the level follows it, nothing else changes. */
  function AddExperience(cur: Option<User>, points: nat): (r: Option<User>)
    ensures r.Some? <==> cur.Some?
    ensures cur.Some? ==>
      && SameIdentity(r.value, cur.value)
      && r.value.badges == cur.value.badges
      && r.value.experience == Some(Experience(cur.value) + points)
      && r.value.level == Some(CalculateLevel(Experience(cur.value) + points))
    ensures UserWellFormed(cur) ==> UserWellFormed(r)
  {
    match cur
    case None => cur
    case Some(u) =>
      var e := Experience(u) + points;
      Some(u.(experience := Some(e), level := Some(CalculateLevel(e))))
  }

  /** Two grants add up to one grant of the sum. */
  lemma AddExperienceAdditive(cur: Option<User>, p: nat, q: nat)
    ensures AddExperience(AddExperience(cur, p), q) == AddExperience(cur, p + q)
  {
  }

  /** Granting experience never lowers the stored level. */
  lemma AddExperienceLevelNeverDrops(cur: Option<User>, points: nat)
    requires cur.Some? && LevelConsistent(cur.value)
    ensures AddExperience(cur, points).value.level.value >= cur.value.level.value
  {
    LevelMonotone(cur.value.experience.value, cur.value.experience.value + points);
  }

  /** `addBadge`: a no-op without a current user; otherwise the badge is
      appended at the end exactly when no badge with its id is present, and
      nothing else changes. */
  function AddBadge(cur: Option<User>, b: Badge): (r: Option<User>)
    ensures r.Some? <==> cur.Some?
    ensures cur.Some? ==>
      && SameIdentity(r.value, cur.value)
      && r.value.experience == cur.value.experience
      && r.value.level == cur.value.level
      && r.value.badges.Some?
    ensures cur.Some? ==>
      var before, after := Badges(cur.value), r.value.badges.value;
      && before <= after
      && BadgeIds(after) == BadgeIds(before) + {b.id}
      && (|after| == |before| <==> HasBadgeId(before, b.id))
      && (|after| == |before| + 1 <==> !HasBadgeId(before, b.id))
      && (|after| == |before| + 1 ==> after[|before|] == b)
    ensures cur.Some? && UniqueBadgeIds(Badges(cur.value)) ==> UniqueBadgeIds(r.value.badges.value)
    ensures UserWellFormed(cur) ==> UserWellFormed(r)
  {
    match cur
    case None => cur
    case Some(u) =>
      var before := Badges(u);
      var after := if HasBadgeId(before, b.id) then before else before + [b];
      AppendIfAbsentIds(before, b);
      Some(u.(badges := Some(after)))
  }

  /** Adding the same badge twice is the same as adding it once. */
  lemma AddBadgeIdempotent(cur: Option<User>, b: Badge)
    ensures AddBadge(AddBadge(cur, b), b) == AddBadge(cur, b)
  {
  }
}

=== FILE: optional.dfy ===
/** An optional value: the model of a TypeScript field declared with `?`
    (or a value that may be `undefined` / `null`). */
module Optional {

  datatype Option<+T> = None | Some(value: T) {

    /** The value, or `default` when absent: the `x || default` idiom of the
        stores for a field that is either absent or set. */
    function GetOr(default: T): T {
      match this
      case Some(v) => v
      case None => default
    }
  }
}

=== FILE: quiz_store.dfy ===
/** The quiz store together with the auth store it rewards: one immutable
    state value, and one transition function per store command. Fresh ids
    (`nanoid`) and the clock (`Date.now`) are parameters. */
module QuizStore {
  import opened Optional
  import opened Types
  import opened Seqs
  import opened Scoring
  import AuthStore

  datatype Store = Store(quizzes: seq<Quiz>, attempts: seq<Attempt>, user: Option<User>)

  function QuizIds(qs: seq<Quiz>): set<Id> {
    set i | 0 <= i < |qs| :: qs[i].id
  }

  function AttemptIds(atts: seq<Attempt>): set<Id> {
    set i | 0 <= i < |atts| :: atts[i].id
  }

  /** "score is present iff completed", and a numeric score is a percentage. */
  predicate AttemptWellFormed(a: Attempt) {
    && (a.score.Some? <==> a.completed)
    && (a.score.Some? && a.score.value.Pct? ==> 0 <= a.score.value.n <= 100)
  }

  predicate AttemptsWellFormed(atts: seq<Attempt>) {
    forall i :: 0 <= i < |atts| ==> AttemptWellFormed(atts[i])
  }

  /** The invariant every command preserves. */
  predicate Valid(s: Store) {
    AttemptsWellFormed(s.attempts) && AuthStore.UserWellFormed(s.user)
  }

  /** The state at start-up: the seeded catalogue, no attempts, nobody
      logged in. */
  function Init(catalogue: seq<Quiz>): (s: Store)
    ensures Valid(s)
    ensures s.quizzes == catalogue && |s.attempts| == 0 && s.user.None?
  {
    Store(catalogue, [], None)
  }

  // ---------------------------------------------------------------------
  // Auth commands on the combined state

  function Login(s: Store, u: User): (r: Store)
    ensures r.quizzes == s.quizzes && r.attempts == s.attempts
    ensures r.user == AuthStore.Login(u)
    ensures AttemptsWellFormed(s.attempts) && AuthStore.UniqueBadgeIds(AuthStore.Badges(u)) ==> Valid(r)
  {
    s.(user := AuthStore.Login(u))
  }

  function Logout(s: Store): (r: Store)
    ensures r.quizzes == s.quizzes && r.attempts == s.attempts && r.user.None?
    ensures Valid(s) ==> Valid(r)
  {
    s.(user := AuthStore.Logout())
  }

  // ---------------------------------------------------------------------
  // Catalogue commands

  /** `addQuiz`: the quiz, under a fresh id, is appended at the end. */
  function AddQuiz(s: Store, data: Quiz, freshId: Id): (r: Store)
    requires freshId !in QuizIds(s.quizzes)
    ensures |r.quizzes| == |s.quizzes| + 1
    ensures r.quizzes[..|s.quizzes|] == s.quizzes
    ensures r.quizzes[|s.quizzes|] == data.(id := freshId)
    ensures QuizIds(r.quizzes) == QuizIds(s.quizzes) + {freshId}
    ensures r.attempts == s.attempts && r.user == s.user
    ensures Valid(s) ==> Valid(r)
  {
    var qs := s.quizzes + [data.(id := freshId)];
    assert qs[|s.quizzes|].id == freshId;
    assert forall i :: 0 <= i < |s.quizzes| ==> qs[i] == s.quizzes[i];
    s.(quizzes := qs)
  }

  /** `deleteQuiz`: drop every quiz with the id, keep the rest in order;
      attempts of the deleted quiz are left in place. */
  function DeleteQuiz(s: Store, id: Id): (r: Store)
    ensures forall i :: 0 <= i < |r.quizzes| ==> r.quizzes[i].id != id
    ensures forall q: Quiz :: q.id != id ==> multiset(r.quizzes)[q] == multiset(s.quizzes)[q]
    ensures id !in QuizIds(s.quizzes) ==> r == s
    ensures r.attempts == s.attempts && r.user == s.user
    ensures Valid(s) ==> Valid(r)
  {
    var qs := Filter(s.quizzes, (q: Quiz) => q.id != id);
    FilterMultiset(s.quizzes, (q: Quiz) => q.id != id);
    s.(quizzes := qs)
  }

  /** A `Partial<Quiz>`: `None` is an absent key. The optional fields of a
      quiz can also be present with the value `undefined`, which the spread
      copies; that is `Some(None)`. */
  datatype QuizPatch = QuizPatch(
    id: Option<Id>,
    title: Option<string>,
    description: Option<string>,
    duration: Option<int>,
    questions: Option<seq<Question>>,
    isActive: Option<bool>,
    allowedStudents: Option<seq<Id>>,
    experiencePoints: Option<Option<nat>>,
    badge: Option<Option<Badge>>)

  /** The patch with no keys. */
  const EmptyPatch := QuizPatch(None, None, None, None, None, None, None, None, None)

  /** One key of a spread: present in the patch, its value wins; absent,
      the field keeps its value. */
  predicate Patched<T(==)>(key: Option<T>, before: T, after: T) {
    && (key.Some? ==> after == key.value)
    && (key.None? ==> after == before)
  }

  /** `{ ...quiz, ...patch }`: a key present in the patch wins, every other
      field is the quiz's. */
  function Merge(q: Quiz, p: QuizPatch): (r: Quiz)
    ensures Patched(p.id, q.id, r.id)
    ensures Patched(p.title, q.title, r.title)
    ensures Patched(p.description, q.description, r.description)
    ensures Patched(p.duration, q.duration, r.duration)
    ensures Patched(p.questions, q.questions, r.questions)
    ensures Patched(p.isActive, q.isActive, r.isActive)
    ensures Patched(p.allowedStudents, q.allowedStudents, r.allowedStudents)
    ensures Patched(p.experiencePoints, q.experiencePoints, r.experiencePoints)
    ensures Patched(p.badge, q.badge, r.badge)
    ensures p == EmptyPatch ==> r == q
  {
    Quiz(
      p.id.GetOr(q.id),
      p.title.GetOr(q.title),
      p.description.GetOr(q.description),
      p.duration.GetOr(q.duration),
      p.questions.GetOr(q.questions),
      p.isActive.GetOr(q.isActive),
      p.allowedStudents.GetOr(q.allowedStudents),
      p.experiencePoints.GetOr(q.experiencePoints),
      p.badge.GetOr(q.badge))
  }

  /** Applying the same patch twice is applying it once. */
  lemma MergeIdempotent(q: Quiz, p: QuizPatch)
    ensures Merge(Merge(q, p), p) == Merge(q, p)
  {
  }

  /** `updateQuiz`: every quiz with the id is merged with the patch; the
      catalogue keeps its length and order, and a missing id changes
      nothing. */
  function UpdateQuiz(s: Store, id: Id, p: QuizPatch): (r: Store)
    ensures |r.quizzes| == |s.quizzes|
    ensures forall i :: 0 <= i < |s.quizzes| && s.quizzes[i].id != id ==> r.quizzes[i] == s.quizzes[i]
    ensures forall i :: 0 <= i < |s.quizzes| && s.quizzes[i].id == id ==> r.quizzes[i] == Merge(s.quizzes[i], p)
    ensures id !in QuizIds(s.quizzes) ==> r == s
    ensures r.attempts == s.attempts && r.user == s.user
    ensures Valid(s) ==> Valid(r)
  {
    var qs := MapWhere(s.quizzes, (q: Quiz) => q.id == id, (q: Quiz) => Merge(q, p));
    if id !in QuizIds(s.quizzes) then
      assert qs == s.quizzes;
      s
    else
      s.(quizzes := qs)
  }

  // ---------------------------------------------------------------------
  // Attempt commands

  /** `startQuiz`: a new in-progress attempt with no answers is appended and
      returned. Neither an earlier unfinished attempt of the student nor the
      quiz's allowed students are consulted. */
  function StartQuiz(s: Store, quizId: Id, studentId: Id, freshId: Id, now: int): (r: (Store, Attempt))
    requires freshId !in AttemptIds(s.attempts)
    ensures r.1.id == freshId && r.1.quizId == quizId && r.1.studentId == studentId
    ensures r.1.answers == map[] && r.1.startTime == now
    ensures !r.1.completed && r.1.score.None?
    ensures r.0.attempts == s.attempts + [r.1]
    ensures AttemptIds(r.0.attempts) == AttemptIds(s.attempts) + {freshId}
    ensures r.0.quizzes == s.quizzes && r.0.user == s.user
    ensures Valid(s) ==> Valid(r.0)
  {
    var a := Attempt(freshId, quizId, studentId, map[], now, false, None);
    var atts := s.attempts + [a];
    assert atts[|s.attempts|].id == freshId;
    assert forall i :: 0 <= i < |s.attempts| ==> atts[i] == s.attempts[i];
    (s.(attempts := atts), a)
  }

  /** `submitAnswer`: the answer for `questionId` on every attempt with the
      id is set (or overwritten); nothing else changes. */
  function SubmitAnswer(s: Store, attemptId: Id, questionId: Id, answer: int): (r: Store)
    ensures |r.attempts| == |s.attempts|
    ensures forall i :: 0 <= i < |s.attempts| && s.attempts[i].id != attemptId ==> r.attempts[i] == s.attempts[i]
    ensures forall i :: 0 <= i < |s.attempts| && s.attempts[i].id == attemptId ==>
      && r.attempts[i].answers.Keys == s.attempts[i].answers.Keys + {questionId}
      && r.attempts[i].answers[questionId] == answer
      && (forall k :: k in s.attempts[i].answers && k != questionId ==> r.attempts[i].answers[k] == s.attempts[i].answers[k])
      && r.attempts[i] == s.attempts[i].(answers := r.attempts[i].answers)
    ensures attemptId !in AttemptIds(s.attempts) ==> r == s
    ensures r.quizzes == s.quizzes && r.user == s.user
    ensures Valid(s) ==> Valid(r)
  {
    var atts := MapWhere(s.attempts, (a: Attempt) => a.id == attemptId,
                         (a: Attempt) => a.(answers := a.answers[questionId := answer]));
    if attemptId !in AttemptIds(s.attempts) then
      assert atts == s.attempts;
      s
    else
      s.(attempts := atts)
  }

  /** `quizzes.find(q => q.id === id)`. */
  function QuizById(qs: seq<Quiz>, id: Id): (r: Option<Quiz>)
    ensures r.Some? <==> id in QuizIds(qs)
    ensures r.Some? ==> r.value.id == id && r.value in qs
    ensures r.Some? ==>
      exists k :: (0 <= k < |qs| && qs[k] == r.value && forall j :: 0 <= j < k ==> qs[j].id != id)
  {
    Find(qs, (q: Quiz) => q.id == id)
  }

  /** The quiz found is the one at the first position carrying the id. */
  lemma QuizByIdAt(qs: seq<Quiz>, id: Id, k: nat)
    requires k < |qs| && qs[k].id == id
    requires forall j :: 0 <= j < k ==> qs[j].id != id
    ensures QuizById(qs, id) == Some(qs[k])
  {
  }

  /** `attempts.find(a => a.id === id)`. */
  function AttemptById(atts: seq<Attempt>, id: Id): (r: Option<Attempt>)
    ensures r.Some? <==> id in AttemptIds(atts)
    ensures r.Some? ==> r.value.id == id && r.value in atts
    ensures r.Some? ==>
      exists k :: (0 <= k < |atts| && atts[k] == r.value && forall j :: 0 <= j < k ==> atts[j].id != id)
  {
    Find(atts, (a: Attempt) => a.id == id)
  }

  /** The answers of an attempt after `submitAnswer` are its answers with
      one entry set. */
  lemma SubmitAnswerAt(s: Store, attemptId: Id, questionId: Id, answer: int, i: nat)
    requires i < |s.attempts| && s.attempts[i].id == attemptId
    ensures SubmitAnswer(s, attemptId, questionId, answer).attempts[i]
      == s.attempts[i].(answers := s.attempts[i].answers[questionId := answer])
  {
  }

  /** The attempt `completeQuiz` scores and the quiz it is scored against:
      the first attempt with the id and the first quiz with its quiz id. */
  function Target(s: Store, attemptId: Id): (r: Option<(Attempt, Quiz)>)
    ensures r.Some? ==> r.value.0.id == attemptId && r.value.1.id == r.value.0.quizId
    ensures r.Some? ==> r.value.0 in s.attempts && r.value.1 in s.quizzes
    ensures r.Some? ==>
      && AttemptById(s.attempts, attemptId) == Some(r.value.0)
      && QuizById(s.quizzes, r.value.0.quizId) == Some(r.value.1)
    ensures r.None? <==>
      attemptId !in AttemptIds(s.attempts)
      || AttemptById(s.attempts, attemptId).value.quizId !in QuizIds(s.quizzes)
  {
    match AttemptById(s.attempts, attemptId)
    case None => None
    case Some(a) =>
      match QuizById(s.quizzes, a.quizId)
      case None => None
      case Some(q) => Some((a, q))
  }

  /** The reward of a passing attempt, granted to whoever is logged in:
      the quiz's experience when it is truthy (present and non-zero), then
      its badge when it is defined. */
  function Reward(cur: Option<User>, quiz: Quiz): (r: Option<User>)
    ensures r.Some? <==> cur.Some?
    ensures cur.Some? ==> AuthStore.SameIdentity(r.value, cur.value)
    ensures cur.Some? && quiz.experiencePoints.Some? && quiz.experiencePoints.value > 0 ==>
      r.value.experience == Some(AuthStore.Experience(cur.value) + quiz.experiencePoints.value)
    ensures cur.Some? && (quiz.experiencePoints.None? || quiz.experiencePoints.value == 0) ==>
      r.value.experience == cur.value.experience
    ensures cur.Some? && quiz.badge.Some? ==>
      r.value.badges.Some? && quiz.badge.value.id in AuthStore.BadgeIds(r.value.badges.value)
    ensures cur.Some? && quiz.badge.None? ==> r.value.badges == cur.value.badges
    ensures cur.Some? && quiz.badge.Some? ==>
      r.value.badges == AuthStore.AddBadge(cur, quiz.badge.value).value.badges
    ensures cur.Some? && quiz.experiencePoints.Some? && quiz.experiencePoints.value > 0 ==>
      r.value.level == Some(AuthStore.CalculateLevel(AuthStore.Experience(cur.value) + quiz.experiencePoints.value))
    ensures cur.Some? && (quiz.experiencePoints.None? || quiz.experiencePoints.value == 0) ==>
      r.value.level == cur.value.level
    ensures AuthStore.UserWellFormed(cur) ==> AuthStore.UserWellFormed(r)
  {
    var afterXp :=
      if quiz.experiencePoints.Some? && quiz.experiencePoints.value != 0
      then AuthStore.AddExperience(cur, quiz.experiencePoints.value)
      else cur;
    if quiz.badge.Some? then AuthStore.AddBadge(afterXp, quiz.badge.value) else afterXp
  }

  /** The attempt as `completeQuiz` leaves it. */
  function Completed(a: Attempt, score: Score): Attempt {
    a.(completed := true, score := Some(score))
  }

  /** `completeQuiz`: a no-op when the attempt or its quiz is missing.
      Otherwise every attempt with the id is marked completed with the
      score of the first one, and, when the unrounded score is at least 70,
      the current user is rewarded. */
  function CompleteQuiz(s: Store, attemptId: Id): (r: Store)
    ensures Target(s, attemptId).None? ==> r == s
    ensures r.quizzes == s.quizzes
    ensures |r.attempts| == |s.attempts|
    ensures forall i :: 0 <= i < |s.attempts| && s.attempts[i].id != attemptId ==> r.attempts[i] == s.attempts[i]
    ensures Target(s, attemptId).Some? ==>
      var (a, quiz) := Target(s, attemptId).value;
      forall i :: 0 <= i < |s.attempts| && s.attempts[i].id == attemptId ==>
        r.attempts[i] == s.attempts[i].(completed := true, score := Some(ScoreOf(quiz.questions, a.answers)))
    ensures r.user != s.user ==>
      Target(s, attemptId).Some? &&
      var (a, quiz) := Target(s, attemptId).value;
      Passes(CountCorrect(quiz.questions, a.answers), |quiz.questions|)
    ensures Target(s, attemptId).Some? ==>
      var (a, quiz) := Target(s, attemptId).value;
      Passes(CountCorrect(quiz.questions, a.answers), |quiz.questions|) ==> r.user == Reward(s.user, quiz)
    ensures Valid(s) ==> Valid(r)
  {
    match Target(s, attemptId)
    case None => s
    case Some((a, quiz)) =>
      var correct := CountCorrect(quiz.questions, a.answers);
      var score := ScoreOf(quiz.questions, a.answers);
      var user := if Passes(correct, |quiz.questions|) then Reward(s.user, quiz) else s.user;
      var atts := MapWhere(s.attempts, (x: Attempt) => x.id == attemptId, (x: Attempt) => Completed(x, score));
      Store(s.quizzes, atts, user)
  }

  // ---------------------------------------------------------------------
  // Queries

  predicate IsOpenAttemptOf(a: Attempt, studentId: Id) {
    a.studentId == studentId && !a.completed
  }

  /** `getCurrentAttempt`: the first unfinished attempt of the student in
      list order, or none. */
  function GetCurrentAttempt(s: Store, studentId: Id): (r: Option<Attempt>)
    ensures r.None? <==> forall i :: 0 <= i < |s.attempts| ==> !IsOpenAttemptOf(s.attempts[i], studentId)
    ensures r.Some? ==> IsOpenAttemptOf(r.value, studentId)
    ensures r.Some? ==>
      exists k :: (0 <= k < |s.attempts| && s.attempts[k] == r.value
        && forall j :: 0 <= j < k ==> !IsOpenAttemptOf(s.attempts[j], studentId))
  {
    Find(s.attempts, (a: Attempt) => IsOpenAttemptOf(a, studentId))
  }

  /** The numerator of the progress: completed attempts (not distinct
      quizzes) of the student. */
  function CompletedAttempts(s: Store, studentId: Id): seq<Attempt> {
    Filter(s.attempts, (a: Attempt) => a.studentId == studentId && a.completed)
  }

  /** The denominator: active quizzes whose allowed students include the
      student. */
  function AvailableQuizzes(s: Store, studentId: Id): seq<Quiz> {
    Filter(s.quizzes, (q: Quiz) => q.isActive && studentId in q.allowedStudents)
  }

  /** `total > 0 ? (done / total) * 100 : 0`. */
  function ProgressPercent(done: nat, total: nat): (r: real)
    ensures r >= 0.0
    ensures total == 0 ==> r == 0.0
    ensures total > 0 ==> r * (total as real) == 100.0 * (done as real)
    ensures r == 0.0 <==> total == 0 || done == 0
  {
    if total > 0 then
      var q := done as real / total as real;
      assert q * (total as real) == done as real;
      q * 100.0
    else 0.0
  }

  /** `getStudentProgress`: completed attempts per available quiz, as a
      percentage; 0 when no quiz is available. */
  function GetStudentProgress(s: Store, studentId: Id): (r: real)
    ensures r >= 0.0
    ensures |AvailableQuizzes(s, studentId)| == 0 ==> r == 0.0
    ensures |AvailableQuizzes(s, studentId)| > 0 ==>
      r * (|AvailableQuizzes(s, studentId)| as real) == 100.0 * (|CompletedAttempts(s, studentId)| as real)
    ensures r == 0.0 <==> |AvailableQuizzes(s, studentId)| == 0 || |CompletedAttempts(s, studentId)| == 0
  {
    ProgressPercent(|CompletedAttempts(s, studentId)|, |AvailableQuizzes(s, studentId)|)
  }
}

=== FILE: quiz_store_props.dfy ===
/** Properties relating several store commands: round trips, idempotence,
    last-write-wins, and what the progress query is insensitive to. */
module QuizStoreProps {
  import opened Optional
  import opened Types
  import opened Seqs
  import opened Scoring
  import opened QuizStore

  /** Deleting the quiz just added under a fresh id restores the state. */
  lemma AddThenDeleteRestores(s: Store, data: Quiz, freshId: Id)
    requires freshId !in QuizIds(s.quizzes)
    ensures DeleteQuiz(AddQuiz(s, data, freshId), freshId) == s
  {
    var keep := (q: Quiz) => q.id != freshId;
    var added := data.(id := freshId);
    FilterAppend(s.quizzes, [added], keep);
    assert Filter([added], keep) == [];
    assert Filter(s.quizzes, keep) == s.quizzes;
  }

  /** The quiz just added is found under its fresh id, with the given data. */
  lemma AddThenFind(s: Store, data: Quiz, freshId: Id)
    requires freshId !in QuizIds(s.quizzes)
    ensures QuizById(AddQuiz(s, data, freshId).quizzes, freshId) == Some(data.(id := freshId))
  {
  }

  /** Deletion keeps the surviving quizzes in their catalogue order: it
      distributes over any split of the catalogue. */
  lemma DeleteQuizKeepsOrder(s: Store, a: seq<Quiz>, b: seq<Quiz>, id: Id)
    ensures DeleteQuiz(s.(quizzes := a + b), id).quizzes
      == DeleteQuiz(s.(quizzes := a), id).quizzes + DeleteQuiz(s.(quizzes := b), id).quizzes
  {
    FilterAppend(a, b, (q: Quiz) => q.id != id);
  }

  /** The progress numerator holds exactly the student's completed
      attempts, each as often as it occurs in the store. */
  lemma CompletedAttemptsAre(s: Store, studentId: Id)
    ensures forall a: Attempt :: a.studentId == studentId && a.completed ==>
      multiset(CompletedAttempts(s, studentId))[a] == multiset(s.attempts)[a]
    ensures forall a: Attempt :: !(a.studentId == studentId && a.completed) ==>
      multiset(CompletedAttempts(s, studentId))[a] == 0
  {
    FilterMultiset(s.attempts, (a: Attempt) => a.studentId == studentId && a.completed);
  }

  /** The progress denominator holds exactly the active quizzes that list
      the student, each as often as it occurs in the catalogue. */
  lemma AvailableQuizzesAre(s: Store, studentId: Id)
    ensures forall q: Quiz :: q.isActive && studentId in q.allowedStudents ==>
      multiset(AvailableQuizzes(s, studentId))[q] == multiset(s.quizzes)[q]
    ensures forall q: Quiz :: !(q.isActive && studentId in q.allowedStudents) ==>
      multiset(AvailableQuizzes(s, studentId))[q] == 0
  {
    FilterMultiset(s.quizzes, (q: Quiz) => q.isActive && studentId in q.allowedStudents);
  }

  /** Deleting twice is deleting once. */
  lemma DeleteQuizIdempotent(s: Store, id: Id)
    ensures DeleteQuiz(DeleteQuiz(s, id), id) == DeleteQuiz(s, id)
  {
  }

  /** Updating twice with the same patch is updating once, even when the
      patch renames the quiz. */
  lemma UpdateQuizIdempotent(s: Store, id: Id, p: QuizPatch)
    ensures UpdateQuiz(UpdateQuiz(s, id, p), id, p) == UpdateQuiz(s, id, p)
  {
  }

  /** Deactivating a quiz and reading it back yields the same quiz with only
      `isActive` changed. */
  lemma DeactivateThenRead(s: Store, id: Id)
    requires QuizById(s.quizzes, id).Some?
    ensures QuizById(UpdateQuiz(s, id, EmptyPatch.(isActive := Some(false))).quizzes, id)
      == Some(QuizById(s.quizzes, id).value.(isActive := false))
  {
    var p := EmptyPatch.(isActive := Some(false));
    var qs := UpdateQuiz(s, id, p).quizzes;
    var before := QuizById(s.quizzes, id).value;
    var k :| 0 <= k < |s.quizzes| && s.quizzes[k] == before
      && forall j :: 0 <= j < k ==> s.quizzes[j].id != id;
    assert qs[k] == Merge(before, p) == before.(isActive := false);
    QuizByIdAt(qs, id, k);
  }

  /** A later answer to the same question replaces an earlier one. */
  lemma SubmitLastWins(s: Store, attemptId: Id, questionId: Id, x: int, y: int)
    ensures SubmitAnswer(SubmitAnswer(s, attemptId, questionId, x), attemptId, questionId, y)
      == SubmitAnswer(s, attemptId, questionId, y)
  {
    var first := SubmitAnswer(s, attemptId, questionId, x);
    var lhs := SubmitAnswer(first, attemptId, questionId, y);
    var rhs := SubmitAnswer(s, attemptId, questionId, y);
    forall i | 0 <= i < |s.attempts|
      ensures lhs.attempts[i] == rhs.attempts[i]
    {
      if s.attempts[i].id == attemptId {
        assert lhs.attempts[i].answers == rhs.attempts[i].answers;
      }
    }
  }

  lemma MapUpdatesCommute(m: map<Id, int>, a: Id, x: int, b: Id, y: int)
    requires a != b
    ensures m[a := x][b := y] == m[b := y][a := x]
  {
  }

  /** Answers to two different questions can be recorded in either order. */
  lemma SubmitDifferentQuestionsCommute(s: Store, attemptId: Id, q1: Id, x: int, q2: Id, y: int)
    requires q1 != q2
    ensures SubmitAnswer(SubmitAnswer(s, attemptId, q1, x), attemptId, q2, y)
      == SubmitAnswer(SubmitAnswer(s, attemptId, q2, y), attemptId, q1, x)
  {
    var lhs := SubmitAnswer(SubmitAnswer(s, attemptId, q1, x), attemptId, q2, y);
    var rhs := SubmitAnswer(SubmitAnswer(s, attemptId, q2, y), attemptId, q1, x);
    forall i | 0 <= i < |s.attempts|
      ensures lhs.attempts[i] == rhs.attempts[i]
    {
      if s.attempts[i].id == attemptId {
        var m := s.attempts[i].answers;
        var mid1 := SubmitAnswer(s, attemptId, q1, x);
        var mid2 := SubmitAnswer(s, attemptId, q2, y);
        SubmitAnswerAt(s, attemptId, q1, x, i);
        SubmitAnswerAt(mid1, attemptId, q2, y, i);
        SubmitAnswerAt(s, attemptId, q2, y, i);
        SubmitAnswerAt(mid2, attemptId, q1, x, i);
        MapUpdatesCommute(m, q1, x, q2, y);
      }
    }
  }

  /** Two sequences on which a predicate agrees position by position keep
      the same number of elements under `filter`. */
  lemma {:induction false} FilterLengthPointwise<T(!new)>(a: seq<T>, b: seq<T>, p: T -> bool)
    requires |a| == |b|
    requires forall i :: 0 <= i < |a| ==> p(a[i]) == p(b[i])
    ensures |Filter(a, p)| == |Filter(b, p)|
    decreases |a|
  {
    if |a| > 0 {
      FilterLengthPointwise(a[1..], b[1..], p);
    }
  }

  /** Recording an answer never changes a student's progress. */
  lemma SubmitKeepsProgress(s: Store, attemptId: Id, questionId: Id, answer: int, studentId: Id)
    ensures GetStudentProgress(SubmitAnswer(s, attemptId, questionId, answer), studentId)
      == GetStudentProgress(s, studentId)
  {
    var r := SubmitAnswer(s, attemptId, questionId, answer);
    FilterLengthPointwise(r.attempts, s.attempts, (a: Attempt) => a.studentId == studentId && a.completed);
  }

  /** Starting an attempt never changes a student's progress: the new
      attempt is not completed. */
  lemma StartKeepsProgress(s: Store, quizId: Id, who: Id, freshId: Id, now: int, studentId: Id)
    requires freshId !in AttemptIds(s.attempts)
    ensures GetStudentProgress(StartQuiz(s, quizId, who, freshId, now).0, studentId)
      == GetStudentProgress(s, studentId)
  {
    var r := StartQuiz(s, quizId, who, freshId, now);
    var done := (a: Attempt) => a.studentId == studentId && a.completed;
    FilterAppend(s.attempts, [r.1], done);
    assert Filter([r.1], done) == [];
  }

  /** Starting an attempt makes it the student's current one exactly when
      the student had no unfinished attempt; otherwise the older one stays
      current. */
  lemma StartThenCurrent(s: Store, quizId: Id, studentId: Id, freshId: Id, now: int)
    requires freshId !in AttemptIds(s.attempts)
    ensures var (r, a) := StartQuiz(s, quizId, studentId, freshId, now);
      GetCurrentAttempt(r, studentId)
        == if GetCurrentAttempt(s, studentId).Some? then GetCurrentAttempt(s, studentId) else Some(a)
  {
    var (r, a) := StartQuiz(s, quizId, studentId, freshId, now);
    var cur := GetCurrentAttempt(r, studentId);
    assert r.attempts[|s.attempts|] == a;
    var k :| 0 <= k < |r.attempts| && r.attempts[k] == cur.value
      && forall j :: 0 <= j < k ==> !IsOpenAttemptOf(r.attempts[j], studentId);
    if GetCurrentAttempt(s, studentId).Some? {
      var earlier := GetCurrentAttempt(s, studentId).value;
      var k0 :| 0 <= k0 < |s.attempts| && s.attempts[k0] == earlier
        && forall j :: 0 <= j < k0 ==> !IsOpenAttemptOf(s.attempts[j], studentId);
      assert r.attempts[k0] == earlier;
    }
  }

  /** Completing an attempt rewards the logged-in user only on a pass, and
      never changes who is logged in. */
  lemma CompleteRewardsOnlyOnPass(s: Store, attemptId: Id)
    requires Target(s, attemptId).Some?
    ensures var (a, quiz) := Target(s, attemptId).value;
      !Passes(CountCorrect(quiz.questions, a.answers), |quiz.questions|) ==> CompleteQuiz(s, attemptId).user == s.user
    ensures CompleteQuiz(s, attemptId).user.Some? <==> s.user.Some?
  {
  }

  /** An attempt of a quiz without questions is completed with a `NaN`
      score and never rewarded. */
  lemma EmptyQuizScoresNaN(s: Store, attemptId: Id)
    requires Target(s, attemptId).Some? && |Target(s, attemptId).value.1.questions| == 0
    ensures CompleteQuiz(s, attemptId).user == s.user
    ensures forall i :: 0 <= i < |s.attempts| && s.attempts[i].id == attemptId ==>
      CompleteQuiz(s, attemptId).attempts[i].score == Some(NaN)
  {
  }
}

=== FILE: scenarios.dfy ===
/** Concrete runs of the stores: two scoring examples, and
    witnesses for behaviours that are easy to get wrong (a second
    completion rewards again, the reward goes to whoever is logged in,
    progress can exceed 100). */
module Scenarios {
  import opened Optional
  import opened Types
  import opened Scoring
  import AuthStore
  import opened QuizStore

  const Q1 := Question("q1", "First", ["a", "b"], 1)
  const Q2 := Question("q2", "Second", ["a", "b"], 1)
  const Star := Badge("b1", "Star", "Passed the quiz", "star", "gold")
  /** Two questions, correct answers at index 1 and 1, worth 50 XP and a badge. */
  const TwoQuestions := Quiz("z1", "Quiz", "Two questions", 10, [Q1, Q2], true, ["S1"], Some(50), Some(Star))
  const Alice := User("u1", "Alice", "alice@example.org", Student, Some("S1"), None, None, None)
  const Root := User("u0", "Root", "root@example.org", Admin, None, Some(0), Some(1), Some([]))

  function InProgress(id: Id, answers: map<Id, int>): Attempt {
    Attempt(id, "z1", "S1", answers, 0, false, None)
  }

  function Taking(who: User, answers: map<Id, int>): Store {
    Store([TwoQuestions], [InProgress("a1", answers)], AuthStore.Login(who))
  }

  /** Answers {q1: 1, q2: 0}: one of two correct, score 50, no reward. */
  lemma HalfRightNoReward()
    ensures var r := CompleteQuiz(Taking(Alice, map["q1" := 1, "q2" := 0]), "a1");
      && r.attempts[0].completed
      && r.attempts[0].score == Some(Pct(50))
      && r.user == AuthStore.Login(Alice)
  {
  }

  /** The reward of the two-question quiz, granted to Alice after login. */
  lemma AliceReward()
    ensures var u := Reward(AuthStore.Login(Alice), TwoQuestions);
      u.Some? && u.value.experience == Some(50) && u.value.badges == Some([Star])
  {
    var xp := AuthStore.AddExperience(AuthStore.Login(Alice), 50);
    assert Reward(AuthStore.Login(Alice), TwoQuestions) == AuthStore.AddBadge(xp, Star);
    assert xp.value.badges == Some([]);
    assert !AuthStore.HasBadgeId([], Star.id);
    var bs := AuthStore.AddBadge(xp, Star).value.badges.value;
    assert |bs| == 1 && bs[0] == Star;
    assert bs == [Star];
  }

  /** Answers {q1: 1, q2: 1}: score 100, 50 XP and the badge granted. */
  lemma AllRightRewarded()
    ensures var r := CompleteQuiz(Taking(Alice, map["q1" := 1, "q2" := 1]), "a1");
      && r.attempts[0].score == Some(Pct(100))
      && r.user.Some?
      && r.user.value.experience == Some(50)
      && r.user.value.badges == Some([Star])
  {
    var answers := map["q1" := 1, "q2" := 1];
    assert Target(Taking(Alice, answers), "a1") == Some((InProgress("a1", answers), TwoQuestions));
    assert [Q1, Q2][..1] == [Q1];
    assert CountCorrect([Q1, Q2], answers) == 2;
    assert Passes(2, 2);
    AliceReward();
  }

  /** Completing the same attempt a second time grants the experience
      again: completion is not idempotent. */
  lemma SecondCompletionRewardsAgain()
    ensures var once := CompleteQuiz(Taking(Alice, map["q1" := 1, "q2" := 1]), "a1");
      var twice := CompleteQuiz(once, "a1");
      && once.user.value.experience == Some(50)
      && twice.user.value.experience == Some(100)
  {
    AllRightRewarded();
    var once := CompleteQuiz(Taking(Alice, map["q1" := 1, "q2" := 1]), "a1");
    CompletedAttemptPassesAgain(once);
  }

  /** The state after the first completion still has a passing target.
      The store is a parameter pinned by the requires, which keeps the
      verifier from unfolding the literal store; this is not a general lemma. */
  lemma CompletedAttemptPassesAgain(once: Store)
    requires once == CompleteQuiz(Taking(Alice, map["q1" := 1, "q2" := 1]), "a1")
    ensures CompleteQuiz(once, "a1").user == Reward(once.user, TwoQuestions)
  {
    var answers := map["q1" := 1, "q2" := 1];
    var done := Completed(InProgress("a1", answers), Pct(100));
    assert Target(Taking(Alice, answers), "a1") == Some((InProgress("a1", answers), TwoQuestions));
    assert [Q1, Q2][..1] == [Q1];
    assert CountCorrect([Q1, Q2], answers) == 2;
    assert once.attempts == [done];
    assert Target(once, "a1") == Some((done, TwoQuestions));
    assert Passes(2, 2);
  }

  /** The reward lands on whoever is logged in: an administrator without a
      student id collects the XP of student S1's attempt. */
  lemma RewardGoesToCurrentUser()
    ensures var r := CompleteQuiz(Taking(Root, map["q1" := 1, "q2" := 1]), "a1");
      && r.user.value.id == "u0"
      && r.user.value.experience == Some(50)
  {
    RootCompletes(map["q1" := 1, "q2" := 1]);
    RootReward();
  }

  /** The reward of the two-question quiz, granted to the administrator. */
  lemma RootReward()
    ensures var u := Reward(AuthStore.Login(Root), TwoQuestions);
      u.Some? && u.value.id == "u0" && u.value.experience == Some(50)
  {
    var u := AuthStore.Login(Root);
    assert u.value.id == "u0" && AuthStore.Experience(u.value) == 0;
  }

  /** Completing the administrator's attempt grants the quiz's reward. The
      answers are a parameter pinned by the requires, which keeps the
      verifier from unfolding the literal map; this is not a general lemma. */
  lemma RootCompletes(answers: map<Id, int>)
    requires answers == map["q1" := 1, "q2" := 1]
    ensures CompleteQuiz(Taking(Root, answers), "a1").user == Reward(AuthStore.Login(Root), TwoQuestions)
  {
  }

  /** No active quiz lists the student: progress is 0, not a division by
      zero. */
  lemma NoAvailableQuizProgressZero()
    ensures GetStudentProgress(Store([TwoQuestions.(allowedStudents := ["S2"])], [], None), "S1") == 0.0
  {
  }

  /** Two completed attempts of the one available quiz give progress 200:
      the numerator counts attempts, not distinct quizzes. */
  lemma ProgressCanExceedHundred()
    ensures var done := Completed(InProgress("a1", map[]), Pct(0));
      GetStudentProgress(Store([TwoQuestions], [done, done.(id := "a2")], None), "S1") == 200.0
  {
  }

  /** Starting twice without completing leaves two unfinished attempts, and
      the first one started is the current one. */
  lemma StartTwiceFirstIsCurrent()
    ensures var (s1, a1) := StartQuiz(Store([TwoQuestions], [], None), "z1", "S1", "a1", 0);
      var (s2, a2) := StartQuiz(s1, "z1", "S1", "a2", 5);
      && s2.attempts == [a1, a2]
      && GetCurrentAttempt(s2, "S1") == Some(a1)
  {
  }
}

=== FILE: scoring.dfy ===
/** Scoring of an attempt in `completeQuiz`: how many questions were answered
    correctly, the rounded percentage that is stored, and the pass test that
    decides the reward. The source computes `(correct / total) * 100` in
    floating point; here the same quantities are stated over integers and
    reals. */
module Scoring {
  import opened Types

  /** A question counts as correct when the attempt recorded an answer for
      its id and that answer equals the correct index; a missing answer is
      `undefined`, which equals no index. */
  predicate IsCorrect(q: Question, answers: map<Id, int>) {
    q.id in answers && answers[q.id] == q.correctAnswer
  }

  /** The `reduce` over the questions, left to right, adding one per correct
      answer. */
  function CountCorrect(qs: seq<Question>, answers: map<Id, int>): (c: nat)
    ensures c <= |qs|
    ensures c == |qs| <==> forall i :: 0 <= i < |qs| ==> IsCorrect(qs[i], answers)
    ensures c == 0 <==> forall i :: 0 <= i < |qs| ==> !IsCorrect(qs[i], answers)
    ensures |qs| == 1 ==> (c == 1 <==> IsCorrect(qs[0], answers))
    decreases |qs|
  {
    if |qs| == 0 then 0
    else
      var init := qs[..|qs| - 1];
      assert forall i :: 0 <= i < |init| ==> init[i] == qs[i];
      CountCorrect(init, answers) + (if IsCorrect(qs[|qs| - 1], answers) then 1 else 0)
  }

  /** Counting splits over concatenation: with the one-question case above,
      the count is the number of correctly answered questions. */
  lemma {:induction false} CountCorrectAppend(a: seq<Question>, b: seq<Question>, answers: map<Id, int>)
    ensures CountCorrect(a + b, answers) == CountCorrect(a, answers) + CountCorrect(b, answers)
    decreases |b|
  {
    if |b| == 0 {
      assert a + b == a;
    } else {
      var init := b[..|b| - 1];
      assert (a + b)[..|a + b| - 1] == a + init;
      assert (a + b)[|a + b| - 1] == b[|b| - 1];
      CountCorrectAppend(a, init, answers);
    }
  }

  /** The count only looks at answers recorded under the quiz's question
      ids: an answer under any other key changes nothing. */
  lemma {:induction false} CountCorrectIgnoresOtherKeys(qs: seq<Question>, answers: map<Id, int>, key: Id, x: int)
    requires forall i :: 0 <= i < |qs| ==> qs[i].id != key
    ensures CountCorrect(qs, answers[key := x]) == CountCorrect(qs, answers)
    decreases |qs|
  {
    if |qs| > 0 {
      CountCorrectIgnoresOtherKeys(qs[..|qs| - 1], answers, key, x);
    }
  }

  /** `Math.round((c / t) * 100)` in exact arithmetic: the integer nearest
      to the percentage, with halves rounded up. The source rounds a double,
      which can lie just below a half (23 of 40 gives 57.49999999999999). */
  function RoundedPercent(c: nat, t: nat): (r: int)
    requires 0 < t && c <= t
    ensures 0 <= r <= 100
    ensures (r as real) - 0.5 <= 100.0 * (c as real) / (t as real) < (r as real) + 0.5
  {
    var r := (200 * c + t) / (2 * t);
    DivBounds(200 * c + t, 2 * t);
    RoundedInRange(c, t, r);
    RoundedIsNearest(c, t, r);
    r
  }

  lemma DivBounds(n: nat, d: nat)
    requires d > 0
    ensures d * (n / d) <= n < d * (n / d + 1)
  {
  }

  lemma MulLe(d: nat, a: int, b: int)
    requires a <= b
    ensures d * a <= d * b
  {
  }

  lemma RoundedInRange(c: nat, t: nat, r: int)
    requires 0 < t && c <= t
    requires 2 * t * r <= 200 * c + t < 2 * t * (r + 1)
    ensures 0 <= r <= 100
  {
  }

  lemma CastMul(a: int, b: int)
    ensures (a * b) as real == (a as real) * (b as real)
  {
  }

  lemma RoundedIsNearest(c: nat, t: nat, r: int)
    requires 0 < t
    requires 2 * t * r <= 200 * c + t < 2 * t * (r + 1)
    ensures (r as real) - 0.5 <= 100.0 * (c as real) / (t as real) < (r as real) + 0.5
  {
    var C, T, R := c as real, t as real, r as real;
    CastMul(2 * t, r);
    CastMul(2 * t, r + 1);
    assert 2.0 * T * R <= 200.0 * C + T;
    assert 200.0 * C + T < 2.0 * T * (R + 1.0);
    assert (R - 0.5) * T <= 100.0 * C;
    assert 100.0 * C < (R + 0.5) * T;
    BelowQuotient(R - 0.5, T, 100.0 * C);
    AboveQuotient(R + 0.5, T, 100.0 * C);
  }

  lemma BelowQuotient(a: real, b: real, d: real)
    requires b > 0.0 && a * b <= d
    ensures a <= d / b
  {
  }

  lemma AboveQuotient(a: real, b: real, d: real)
    requires b > 0.0 && d < a * b
    ensures d / b < a
  {
  }

  /** All correct rounds to 100, none correct to 0. */
  lemma RoundedExtremes(t: nat)
    requires t > 0
    ensures RoundedPercent(t, t) == 100 && RoundedPercent(0, t) == 0
  {
    var hi, lo := RoundedPercent(t, t), RoundedPercent(0, t);
    DivBounds(200 * t + t, 2 * t);
    DivBounds(t, 2 * t);
    if hi < 100 {
      MulLe(2 * t, hi + 1, 100);
    }
    if lo > 0 {
      MulLe(2 * t, 1, lo);
    }
  }

  /** `score >= 70` on the unrounded score. With no questions the score is
      `NaN` and the comparison is false. */
  predicate Passes(c: nat, t: nat) {
    t > 0 && 100 * c >= 70 * t
  }

  /** The integer pass test is the source's comparison on the exact
      percentage. */
  lemma PassesIsSeventyPercent(c: nat, t: nat)
    ensures Passes(c, t) <==> t > 0 && 100.0 * (c as real) / (t as real) >= 70.0
  {
  }

  /** The stored score: the rounded percentage, or `NaN` for a quiz without
      questions. */
  function ScoreOf(qs: seq<Question>, answers: map<Id, int>): (s: Score)
    ensures s.Pct? <==> |qs| > 0
    ensures s.Pct? ==> 0 <= s.n <= 100
    ensures s.Pct? ==>
      (s.n as real) - 0.5 <= 100.0 * (CountCorrect(qs, answers) as real) / (|qs| as real) < (s.n as real) + 0.5
    ensures |qs| > 0 && (forall i :: 0 <= i < |qs| ==> IsCorrect(qs[i], answers)) ==> s == Pct(100)
    ensures |qs| > 0 && (forall i :: 0 <= i < |qs| ==> !IsCorrect(qs[i], answers)) ==> s == Pct(0)
  {
    if |qs| == 0 then NaN
    else
      var c := CountCorrect(qs, answers);
      RoundedExtremes(|qs|);
      Pct(RoundedPercent(c, |qs|))
  }

  /** A passing attempt stores a score of at least 70. */
  lemma PassImpliesStoredScoreAtLeastSeventy(c: nat, t: nat)
    requires c <= t && Passes(c, t)
    ensures RoundedPercent(c, t) >= 70
  {
    var r := RoundedPercent(c, t);
    DivBounds(200 * c + t, 2 * t);
    if r < 70 {
      MulLe(2 * t, r + 1, 70);
    }
  }

  /** A 99.5 percent result (199 of 200) is stored as 100, although one
      answer was wrong: a full score does not mean every answer was right. */
  lemma FullScoreNeedNotBePerfect()
    ensures RoundedPercent(199, 200) == 100
  {
  }

  /** The converse fails: 139 of 200 is 69.5 percent, stored as 70, yet the
      unrounded score is below the threshold and no reward is granted. */
  lemma RoundedSeventyNeedNotPass()
    ensures RoundedPercent(139, 200) == 70 && !Passes(139, 200)
  {
  }
}

=== FILE: seqs.dfy ===
/** The array primitives the stores are written with (`filter`, `find`,
    `map`), over immutable sequences and total predicates. */
module Seqs {
  import opened Optional

  /** `Array.prototype.filter`: the elements satisfying `p`, in order. */
  function Filter<T(==,!new)>(s: seq<T>, p: T -> bool): (r: seq<T>)
    ensures |r| <= |s|
    ensures forall i :: 0 <= i < |r| ==> p(r[i])
    ensures (forall i :: 0 <= i < |s| ==> p(s[i])) ==> r == s
    decreases |s|
  {
    if |s| == 0 then []
    else
      var rest := Filter(s[1..], p);
      if p(s[0]) then [s[0]] + rest else rest
  }

  /** Filtering keeps every element satisfying `p` as often as it occurs,
      and nothing else. */
  lemma {:induction false} FilterMultiset<T(!new)>(s: seq<T>, p: T -> bool)
    ensures forall x :: p(x) ==> multiset(Filter(s, p))[x] == multiset(s)[x]
    ensures forall x :: !p(x) ==> multiset(Filter(s, p))[x] == 0
    decreases |s|
  {
    if |s| > 0 {
      FilterMultiset(s[1..], p);
      assert s == [s[0]] + s[1..];
    }
  }

  /** Filtering distributes over concatenation: the kept elements stay in
      their original order. */
  lemma {:induction false} FilterAppend<T(!new)>(a: seq<T>, b: seq<T>, p: T -> bool)
    ensures Filter(a + b, p) == Filter(a, p) + Filter(b, p)
    decreases |a|
  {
    if |a| > 0 {
      assert (a + b)[1..] == a[1..] + b;
      FilterAppend(a[1..], b, p);
    } else {
      assert a + b == b;
    }
  }

  /** The index `findIndex` would report, or `|s|` when nothing matches. */
  function FirstIndex<T>(s: seq<T>, p: T -> bool): (k: nat)
    ensures k <= |s|
    ensures k < |s| ==> p(s[k])
    ensures forall j :: 0 <= j < k ==> !p(s[j])
    decreases |s|
  {
    if |s| == 0 then 0
    else if p(s[0]) then 0
    else 1 + FirstIndex(s[1..], p)
  }

  /** `Array.prototype.find`: the first element satisfying `p`, or none. */
  function Find<T>(s: seq<T>, p: T -> bool): (r: Option<T>)
    ensures r.None? <==> forall i :: 0 <= i < |s| ==> !p(s[i])
    ensures r.Some? ==> p(r.value)
    ensures r.Some? ==> exists k :: 0 <= k < |s| && s[k] == r.value && forall j :: 0 <= j < k ==> !p(s[j])
  {
    var k := FirstIndex(s, p);
    if k < |s| then Some(s[k]) else None
  }

  /** The `xs.map(x => p(x) ? f(x) : x)` idiom: every element satisfying `p`
      is replaced by its image, every other element stays where it is. */
  function MapWhere<T>(s: seq<T>, p: T -> bool, f: T -> T): (r: seq<T>)
    ensures |r| == |s|
    ensures forall i :: 0 <= i < |s| && !p(s[i]) ==> r[i] == s[i]
    ensures forall i :: 0 <= i < |s| && p(s[i]) ==> r[i] == f(s[i])
  {
    seq(|s|, i requires 0 <= i < |s| => if p(s[i]) then f(s[i]) else s[i])
  }
}

=== FILE: types.dfy ===
/** The record shapes shared by the two stores: users, quizzes, questions,
    attempts and badges. Identifiers are strings, answer indices and
    timestamps are integers. */
module Types {
  import opened Optional

  type Id = string

  datatype Badge = Badge(id: Id, name: string, description: string, icon: string, color: string)

  datatype Role = Admin | Student

  /** A user as handed to `login`: experience, level and badges may be
      absent; `login` fills them in. */
  datatype User = User(
    id: Id,
    name: string,
    email: string,
    role: Role,
    studentId: Option<Id>,
    experience: Option<nat>,
    level: Option<int>,
    badges: Option<seq<Badge>>)

  datatype Question = Question(id: Id, text: string, options: seq<string>, correctAnswer: int)

  datatype Quiz = Quiz(
    id: Id,
    title: string,
    description: string,
    duration: int,
    questions: seq<Question>,
    isActive: bool,
    allowedStudents: seq<Id>,
    experiencePoints: Option<nat>,
    badge: Option<Badge>)

  /** The stored score of a completed attempt. `NaN` is what the division
      `0 / 0` produces for a quiz without questions; it is still a present
      value of the `score` field. */
  datatype Score = Pct(n: int) | NaN

  datatype Attempt = Attempt(
    id: Id,
    quizId: Id,
    studentId: Id,
    answers: map<Id, int>,
    startTime: int,
    completed: bool,
    score: Option<Score>)
}
